=== FILE: README.md ===
# fluchs client stores in Dafny

A model of the state stores of fluchs, a single-page client for a feed-reading
server. The model covers four parts. The root store (`src/stores/root.ts`) holds
the credentials and runs the login state machine. The feeds store
(`src/stores/feeds.ts`) caches feeds by id, attaches them to categories and
applies read/unread counters. The entries store (`src/stores/entries.ts`) holds
one page of entries under a filter, remembers the last successful call, and
marks entries read, unread or starred, with an undo buffer. `pluralize`
(`src/util/pretty.ts`) is a text helper.

Each store is an immutable record. Each action is a pure function from the store
and the settled outcome of its one HTTP request (`Ok(payload)` or `Err(error)`)
to a step record. The step holds the new store, the request the action sent (or
`None`), the readiness values it emitted in order, what it returned, and the
error it handed to the root store's `showError`.

Modules:
- `Common`: shared vocabulary (option type, ids).
- `Decimal`: the decimal spelling of ids in request paths.
- `ObjectKeys`: the ascending order in which an id-keyed JavaScript object enumerates its keys.
- `Model`: the entities.
- `Api`: routes, requests, outcomes and errors.
- `Pretty`, `Session`, `Feeds`, `Entries`: one module per source file.
- `Client`: the stores side by side, with reported errors routed through `showError`.

## Model

| member | source | states |
|---|---|---|
| `Pretty.Pluralize` | src/util/pretty.ts:1-3 | for exactly 1 the word is unchanged; for every other number, zero and negatives included, it is the word plus `s`; the word is always a prefix, and the length is `|w|` or `|w|+1` |
| `Pretty.PluralizeInjective` | src/util/pretty.ts:2 | for a fixed count, two words give the same plural exactly when they are equal |
| `Session.Initial` | src/stores/root.ts:36-43 | a new store holds the stored server and token, is not logged in, has no profile and is in phase `init` |
| `Session.GetUserProfile` | src/stores/root.ts:45-62 | with an empty server or token: phase `auth_needed`, throws "Not logged in", sends nothing. Otherwise it asks `/v1/me` after `checking`. Success logs in, sets `ready` and stores the profile. Failure sets `auth_needed`, rethrows, and leaves the profile and the logged-in flag alone |
| `Session.RegisterToken` | src/stores/root.ts:63-71 | stores the new server and token, then behaves as the profile check on them. With either empty: nothing is sent, phase `auth_needed`, throws "Not logged in". Otherwise it asks `/v1/me`. Success emits `checking, ready`, logs in and stores the profile. Failure emits `checking, auth_needed`, rethrows, and keeps the earlier profile and logged-in flag |
| `Session.ClearToken` | src/stores/root.ts:72-76 | the token becomes "" and the user is logged out; server, profile and phase stay |
| `Session.ShowError` | src/stores/root.ts:77-89 | an HTTP error with status 401 logs out and redirects to `/`; any other error leaves the store as it is and becomes a notification |
| `Session.Report` | src/stores/root.ts:79-82 | handing an action's error to the sink changes only the logged-in flag, which turns false exactly on a 401 |
| `Session.ProfileKnownPreserved` | src/stores/root.ts:45-81 | every root-store action keeps the invariant "logged in or ready implies a profile was received" |
| `Session.ClearTokenThenCheck` | src/stores/root.ts:46-75 | after `clearToken`, a profile check sends nothing, ends in `auth_needed` and leaves the user logged out |
| `Session.RegisterTokenForgetsPrevious` | src/stores/root.ts:63-70 | a successful login settles the same way whatever state the store was in before |
| `Decimal.Show` | src/stores/entries.ts:88 | the `${id}` spelling of an id: at least one character, digits only, no leading zero |
| `Decimal.ReadShow` | src/stores/entries.ts:88 | reading back the decimal spelling of an id interpolated into a path gives the id |
| `Api.PathShape` | src/stores/entries.ts:86-96 | every route lives under `/v1/`, and each of the three entry listings ends in `/entries` |
| `Api.ListingPathInjective` | src/stores/entries.ts:86-96 | the three entry listings are requested at the same path only when they are the same listing with the same id |
| `Entries.ListingRoute` | src/stores/entries.ts:86-96 | the `switch (type)` picks one of the three entry listings for every scope type |
| `Entries.ListingPathDistinguishesScopes` | src/stores/entries.ts:85-96 | two fetches go to one path exactly when their scope types agree and, except for all entries, their ids agree |
| `Entries.GetEntries` | src/stores/entries.ts:71-112 | no request exactly when not forced and the signature (id, type, filter snapshot) equals the memo. A hit returns the page held, leaves it unchanged and emits `loading, ready`. Otherwise it asks the listing with the current filter. Success replaces page and total, becomes the memo and ends `ready`. Failure ends `error`, is reported, returns normally, and leaves the page empty and memo and total unchanged |
| `Entries.GetFeedEntries` | src/stores/entries.ts:113-115 | fetches from `/v1/feeds/{id}/entries`; the hit test and the memo a success stores are the feed scope's signature. A success replaces and returns the page in `ready`; a failure ends `error`, returns `[]` and is reported |
| `Entries.GetCategoryEntries` | src/stores/entries.ts:116-118 | fetches from `/v1/categories/{id}/entries`; the hit test and the memo a success stores are the category scope's signature. A success replaces and returns the page in `ready`; a failure ends `error`, returns `[]` and is reported |
| `Entries.GetAllEntries` | src/stores/entries.ts:119-121 | fetches from `/v1/entries`; the hit test and the memo a success stores use scope id 0. A success replaces and returns the page in `ready`; a failure ends `error`, returns `[]` and is reported |
| `Entries.WithFilter` | src/stores/entries.ts:58-64 | editing the filter leaves memo, page and signal as they were |
| `Entries.FirstFetchMisses` | src/stores/entries.ts:67-79 | a fresh store has no memo, so its first fetch always sends the request |
| `Entries.RepeatIsMemoized` | src/stores/entries.ts:79-82 | right after a fetch that reached the server and succeeded, the same unforced call sends nothing and returns the page received, in `ready` |
| `Entries.FilterChangeMisses` | src/stores/entries.ts:74-79 | the memo keeps the filter snapshot of its call; after the filter changes the next call misses and sends the new filter |
| `Entries.RetryAfterFailure` | src/stores/entries.ts:83-110 | after a failure, retrying the same call reaches the server again, unless the memo already held that call's signature |
| `Entries.StaleHitAfterFailure` | src/stores/entries.ts:79-83 | feed 1 succeeds with entries, feed 2 fails; coming back to feed 1 sends nothing and returns an empty page |
| `Entries.AsWrittenLeavesMemo` | src/stores/entries.ts:105-110 | as written, a failed fetch can leave a memo next to a page in `error` |
| `Entries.GetEntriesCorrected` | src/stores/entries.ts:79-83 | the fetch with the memo dropped when the page is cleared. Same hit condition, request, emitted values, return values and reports as `GetEntries` in every branch. A failure leaves the page empty, the total unchanged and no memo |
| `Entries.CorrectedKeepsMemoBacked` | src/stores/entries.ts:83-110 | with the corrected fetch, a store showing `error` never holds a memo |
| `Entries.CorrectedRetryReachesServer` | src/stores/entries.ts:83-110 | with the corrected fetch, every call after a failure reaches the server |
| `Entries.MarkAsRead` | src/stores/entries.ts:122-132 | sends `[id]` with status read. Only on success do the entries of that id become read, in the page and in the undo buffer alike, with no check of their earlier status, and nothing is reported. Failure changes nothing and is reported |
| `Entries.MarkAsUnread` | src/stores/entries.ts:165-175 | sends `[id]` with status unread. Only on success do the entries of that id become unread, in the page and in the undo buffer, and nothing is reported. Failure changes nothing and is reported |
| `Entries.ToggleStar` | src/stores/entries.ts:176-186 | asks the bookmark route. Only on success is the star of the entries of that id set to the negation of the given entry's star, in the page and in the undo buffer, and nothing is reported. Failure changes nothing and is reported |
| `Entries.UnreadOf` | src/stores/entries.ts:135 | keeps exactly the given entries whose status is unread |
| `Entries.UnreadOfKeepsOrder` | src/stores/entries.ts:135 | the unread entries come out in input order and as often as in the input: a subsequence with the input's count of every unread entry and none of the others |
| `Entries.MarkEntriesAsRead` | src/stores/entries.ts:133-149 | sends only the ids of the unread given entries. With none it sends nothing and changes nothing, buffer included. On success exactly those entries become read, others are untouched, and the buffer becomes exactly them. On failure nothing changes |
| `Entries.UndoMarkEntries` | src/stores/entries.ts:150-164 | an empty buffer sends nothing and reports nothing. Otherwise it sends the buffer's ids with status unread. On success the entries of those ids become unread in the page, each buffered entry becomes itself with status unread, and nothing is reported. On failure nothing changes and the error is reported |
| `Entries.UndoIdempotent` | src/stores/entries.ts:150-164 | an undo after a successful undo changes nothing, so repeating it is harmless |
| `Entries.MarkPageThenUndo` | src/stores/entries.ts:133-164 | for a page with distinct ids and at least one unread entry, marking the page read and undoing it, both successfully, gives back the page (with no unread entry the mark is a no-op and the undo replays an older buffer) |
| `Entries.ToggleStarTwice` | src/stores/entries.ts:176-186 | on a page with distinct ids, two successful toggles of one of its entries give back the page |
| `Entries.ReadThenUnread` | src/stores/entries.ts:122-175 | on a page with distinct ids, marking one of its unread entries read and then unread, both successfully, gives back the page |
| `ObjectKeys.Sorted` | src/stores/feeds.ts:48 | the ids of an id-keyed object in enumeration order: each once, ascending |
| `Feeds.FeedList` | src/stores/feeds.ts:47-49 | the `feeds` getter holds exactly the values of the id map, one per id, in ascending id order |
| `Feeds.Merge` | src/stores/feeds.ts:58-66 | every received feed is stored under its id with both counters 0 (the last of an id wins). Ids absent from the response keep their feed: a merge, not a replacement |
| `Feeds.InCategory` | src/stores/feeds.ts:73 | keeps exactly the feeds whose category id equals the given one |
| `Feeds.InCategoryKeepsOrder` | src/stores/feeds.ts:73 | the `filter` keeps input order and repetition: a subsequence with the input's count of every matching feed and none of the others |
| `Feeds.Attach` | src/stores/feeds.ts:71-74 | each category's list is exactly the cached feeds whose category id equals the category's id |
| `Feeds.AttachKeepsOrder` | src/stores/feeds.ts:71-74 | each category's list keeps the order of the `feeds` getter, so its feeds come by ascending id |
| `Feeds.AttachedOnce` | src/stores/feeds.ts:72-73 | with distinct category ids, no feed is attached to two categories |
| `Feeds.GetFeeds` | src/stores/feeds.ts:51-78 | corrected (category list passed in): with `refresh` false and a non-empty cache it returns the cache and sends nothing, leaving the signal alone. Otherwise it emits `loading`, merges a response (a failure is reported and changes nothing), gives each category, in the given order, the list `Attach` builds from the resulting cache (its feeds of that category id, once each, in ascending id order), and only then emits `ready`, whether or not the request succeeded |
| `Feeds.Refetch` | src/stores/feeds.ts:57-77 | the fetching half of the corrected `getFeeds`: request, `loading` then `ready`, merge or report, and each category given the list `Attach` builds from the resulting cache |
| `Feeds.GetFeedsAsWritten` | src/stores/feeds.ts:71-76 | as written, the attachment callback throws, so a fetch leaves the signal at `loading` |
| `Feeds.AsWrittenNeverReady` | src/stores/feeds.ts:71-76 | the written action never reaches `ready` where the corrected one does, with the same cache and return value |
| `Feeds.ApplyCounts` | src/stores/feeds.ts:85-90 | writes one count per id in turn and stops at the first uncached id; the writes before it stay |
| `Feeds.ReachedIsLeastMissing` | src/stores/feeds.ts:85-87 | over ids in ascending order, the walk writes exactly the ids below the least uncached one |
| `Feeds.ApplyAll` | src/stores/feeds.ts:85-90 | a counter map walked in ascending id order: it completes iff every id is cached; otherwise only ids below the first uncached id are written |
| `Feeds.AfterCounters` | src/stores/feeds.ts:84-92 | only the counters of a feed change. A feed the response does not name is unchanged. When every named id is cached, the feed gets its listed read and unread counts. A failed read walk leaves unread counts alone |
| `Feeds.ApplyCounters` | src/stores/feeds.ts:84-92 | applies reads then unreads, keeps the key set, and raises a TypeError exactly when the response names an uncached id |
| `Feeds.GetFeedCounters` | src/stores/feeds.ts:79-93 | asks `/v1/feeds/counters`. On success named feeds get their counts; the others and the key set stay, with no default of 0. A failure is reported and changes nothing |
| `Client.Start` | src/stores/entries.ts:56-69 | the stores start empty: no feeds, no page, an empty undo buffer, total 0, no memo, the initial filter and both signals at `init`. The session holds the stored server and token, with nobody logged in and no profile |
| `Client.LoadFeeds` | src/stores/feeds.ts:67-69 | a feeds fetch's error goes to `showError`, which changes the session only by a 401 logout |
| `Client.LoadCounters` | src/stores/feeds.ts:92 | a counter fetch's error goes to `showError` in the same way |
| `Client.LoadEntries` | src/stores/entries.ts:107-110 | an entry fetch's error goes to `showError` in the same way |
| `Client.MarkEntriesRead` | src/stores/entries.ts:146-148 | a bulk mark's error goes to `showError` in the same way |
| `Client.Logout` | src/stores/root.ts:72-76 | `clearToken` logs out but leaves every cached feed and entry in place |
| `Client.UnauthorizedFetchLogsOut` | src/stores/root.ts:79-81 | an entry fetch that reaches the server (forced, or its signature differs from the memo) and fails ends in `error`; it logs out exactly when the error is an HTTP 401, and any other failure leaves the login as it was |
| `Client.UnknownFeedCounterKeepsLogin` | src/stores/feeds.ts:85-92 | a counter response whose read or unread map names an uncached feed is reported as a TypeError, never logs out, and keeps the cached ids |

Behaviour of the code that is easy to misread:
- `markAsRead`/`markAsUnread` have no "already read/unread" short-circuit.
- There is no widening of a `read` status filter and no starred scope.
- The counter refresh does not default missing feeds to 0. Instead, a response that names an uncached feed throws a TypeError part-way through.
- A failed entry fetch leaves the page empty, not at its last good value.
- `clearToken` removes only the token, not the server.

## Left out

- `src/router/index.ts` and `src/main.ts`: navigation guard and framework bootstrap, UI glue.
- `getCategories` and the rest of `src/stores/categories.ts`: `Feeds.GetFeeds` takes the category list as a parameter.
- `resetCounters`: it is called at `src/stores/feeds.ts:94`, but `src/stores/categories.ts` does not define it. As shown, that call would throw a TypeError after the counters are applied and after the request's `.catch`, so the promise of `getFeedCounters` rejects. `Feeds.GetFeedCounters` ends the action before that call.
- `markCategoryRead`, `getIcon`, `refreshFeed` and a single-feed fetch: none of the store files defines them.
- Transport: the axios instance, its base URL and auth header, local storage reads and writes, console output, and the Snackbar. `showError`'s navigation and notification are returned as an `Effect` value.
- The readiness signals' multicast and replay: each store keeps the last value emitted, and each step lists what it emitted.
- Async interleaving: each action is atomic. The un-awaited attachment in `getFeeds` is modelled as finishing inside the action, and its rejection as written is not reported.
- Object identity: entry objects are identified by id. A mutation shows in every entry of that id in the page and in the undo buffer, including an entry fetched anew under the same id, which in the code would be a different object.
- Unused fields: dates, icons, and the crawler and credential fields of feeds are not modelled.
- JavaScript numbers: ids are non-negative integers below 2^32 - 1 (the `Id` type enforces this), so an id-keyed object enumerates them in ascending order and `${id}` spells plain digits. Counts and totals are unbounded integers. `pluralize` takes a real; NaN and the infinities are not modelled.
- Deep equality: a filter field explicitly set to `undefined` is not told apart from an absent one.
- `Entries.GetFeedEntries`, `Entries.GetCategoryEntries` and `Entries.GetAllEntries` call the fetch as written. `Client.LoadEntries` uses the corrected fetch.
- Feeds.Attach: its own contract states which feeds each category's list holds; the order is stated separately by `Feeds.AttachKeepsOrder`.

## Findings

| source | as written | input that shows it | evidently intended | confidence | as-written member | corrected member |
|---|---|---|---|---|---|---|
| src/stores/feeds.ts:71-76 | `cats.getCategories()` resolves with no value, because `getCategories` in src/stores/categories.ts:18-24 returns nothing. The callback's `cats.forEach` throws and `state.next("ready")` never runs | any `getFeeds(true)` | the callback receives the category list, attaches the feeds and emits `ready` | high (not executed) | `Feeds.GetFeedsAsWritten`, shown by `Feeds.AsWrittenNeverReady` | `Feeds.GetFeeds` |
| src/stores/entries.ts:79-83 | a miss empties `entries` before the request, but a failure keeps `_prevCall` | fetch feed 1 (succeeds with entries), fetch feed 2 (fails), fetch feed 1 again: answered from memory with an empty page | a memo stands only next to the page that answered it: drop `_prevCall` when the page is cleared | medium (not executed) | `Entries.GetEntries`, shown by `Entries.StaleHitAfterFailure` and `Entries.AsWrittenLeavesMemo` | `Entries.GetEntriesCorrected`, with `Entries.CorrectedRetryReachesServer` |

=== FILE: api.dfy ===
/**
 * The client's view of the remote API: the routes it calls, the requests it
 * sends, and the two ways a call can settle.
 */
module Api {
  import opened Common
  import opened Model
  import Decimal

  /**
   * What a failed action hands to `showError`: a rejected HTTP call (with the
   * response status when the server answered), a TypeError raised by the
   * client's own code, or a plain `Error` with a message.
   */
  datatype Error = HttpError(status: Option<int>) | TypeError | PlainError(message: string)

  /** How the one request of an action settles. */
  datatype Outcome<+T> = Ok(payload: T) | Err(error: Error)

  datatype Verb = Get | Put

  datatype Route =
    | Me
    | AllFeeds
    | FeedCounters
    | FeedEntries(feedId: Id)
    | CategoryEntries(categoryId: Id)
    | AllEntries
    | EntryStatuses
    | Bookmark(entryId: Id)

  /** The body or query parameters a request carries. */
  datatype Payload =
    | NoPayload
    | Query(filter: EntryFilter)
    | StatusChange(entryIds: seq<Id>, status: EntryStatus)

  datatype Request = Request(verb: Verb, route: Route, payload: Payload)

  /** The path a route is requested at. */
  function Path(r: Route): string
  {
    match r
    case Me => "/v1/me"
    case AllFeeds => "/v1/feeds"
    case FeedCounters => "/v1/feeds/counters"
    case FeedEntries(id) => "/v1/feeds/" + Decimal.Show(id) + "/entries"
    case CategoryEntries(id) => "/v1/categories/" + Decimal.Show(id) + "/entries"
    case AllEntries => "/v1/entries"
    case EntryStatuses => "/v1/entries"
    case Bookmark(id) => "/v1/entries/" + Decimal.Show(id) + "/bookmark"
  }

  /** The routes an entry page can be fetched from. */
  predicate IsEntryListing(r: Route)
  {
    r.FeedEntries? || r.CategoryEntries? || r.AllEntries?
  }

  /** Every route lives under `/v1/`, and every entry listing is requested at a path ending in `/entries`. */
  lemma PathShape(r: Route)
    ensures var p := Path(r); |p| > 4 && p[..4] == "/v1/"
    ensures var p := Path(r); IsEntryListing(r) ==> |p| >= 11 && p[|p| - 8..] == "/entries"
  {
  }

  lemma MiddleOf(p: string, x: string, q: string)
    ensures (p + x + q)[|p|..|p| + |x|] == x
  {
    assert (p + x + q)[|p|..|p| + |x|] == (p + x)[|p|..];
  }

  /** Two entry listings are requested at the same path only when they are the same listing. */
  lemma {:induction false} ListingPathInjective(a: Route, b: Route)
    requires IsEntryListing(a) && IsEntryListing(b)
    ensures Path(a) == Path(b) <==> a == b
  {
    if Path(a) == Path(b) {
      var pa, pb := Path(a), Path(b);
      assert pa[4] == pb[4];
      if a.FeedEntries? && b.FeedEntries? {
        MiddleOf("/v1/feeds/", Decimal.Show(a.feedId), "/entries");
        MiddleOf("/v1/feeds/", Decimal.Show(b.feedId), "/entries");
        Decimal.ShowInjective(a.feedId, b.feedId);
      } else if a.CategoryEntries? && b.CategoryEntries? {
        MiddleOf("/v1/categories/", Decimal.Show(a.categoryId), "/entries");
        MiddleOf("/v1/categories/", Decimal.Show(b.categoryId), "/entries");
        Decimal.ShowInjective(a.categoryId, b.categoryId);
      }
    }
  }
}

=== FILE: client.dfy ===
/**
 * The stores side by side, with every failure an action reports handed to the
 * root store's `showError`, as each action's `.catch` does.
 */
module Client {
  import opened Common
  import opened Model
  import opened Api
  import Session
  import Feeds
  import Entries

  datatype Client = Client(session: Session.Session, feeds: Feeds.Store, entries: Entries.Store)

  /** The stores as created, with the credentials found in local storage. */
  function Start(storedServer: string, storedToken: string): (c: Client)
    ensures c.feeds.feeds == map[] && c.feeds.state == Init
    ensures c.entries.entries == [] && c.entries.marked == [] && c.entries.total == 0
    ensures c.entries.state == Init && c.entries.prevCall.None? && c.entries.filter == InitialFilter
    ensures c.session.server == storedServer && c.session.token == storedToken
    ensures !c.session.isLoggedIn && c.session.user.None? && c.session.state == Session.Init
  {
    Client(Session.Initial(storedServer, storedToken), Feeds.Empty, Entries.Initial)
  }

  /** Only an HTTP 401 reaching the sink changes the session, and only by logging out. */
  ghost predicate SessionAfterReport(before: Session.Session, after: Session.Session, reported: Option<Error>)
  {
    && after == before.(isLoggedIn := after.isLoggedIn)
    && (after.isLoggedIn <==> before.isLoggedIn && reported != Some(HttpError(Some(401))))
  }

  function LoadFeeds(c: Client, refresh: bool, outcome: Outcome<seq<Feed>>, categories: seq<Category>): (r: Client)
    ensures var step := Feeds.GetFeeds(c.feeds, refresh, outcome, categories);
      r.feeds == step.store && r.entries == c.entries && SessionAfterReport(c.session, r.session, step.reported)
  {
    var step := Feeds.GetFeeds(c.feeds, refresh, outcome, categories);
    c.(feeds := step.store, session := Session.Report(c.session, step.reported))
  }

  function LoadCounters(c: Client, outcome: Outcome<Feeds.Counters>): (r: Client)
    ensures var step := Feeds.GetFeedCounters(c.feeds, outcome);
      r.feeds == step.store && r.entries == c.entries && SessionAfterReport(c.session, r.session, step.reported)
  {
    var step := Feeds.GetFeedCounters(c.feeds, outcome);
    c.(feeds := step.store, session := Session.Report(c.session, step.reported))
  }

  /** An entry fetch, with the memo dropped when the page is cleared (see `Entries.GetEntriesCorrected`). */
  function LoadEntries(c: Client, id: Id, kind: Entries.FetchType, force: bool, outcome: Outcome<Entries.Page>): (r: Client)
    ensures var step := Entries.GetEntriesCorrected(c.entries, id, kind, force, outcome);
      r.entries == step.store && r.feeds == c.feeds && SessionAfterReport(c.session, r.session, step.reported)
  {
    var step := Entries.GetEntriesCorrected(c.entries, id, kind, force, outcome);
    c.(entries := step.store, session := Session.Report(c.session, step.reported))
  }

  function MarkEntriesRead(c: Client, given: seq<Entry>, outcome: Outcome<()>): (r: Client)
    ensures var step := Entries.MarkEntriesAsRead(c.entries, given, outcome);
      r.entries == step.store && r.feeds == c.feeds && SessionAfterReport(c.session, r.session, step.reported)
  {
    var step := Entries.MarkEntriesAsRead(c.entries, given, outcome);
    c.(entries := step.store, session := Session.Report(c.session, step.reported))
  }

  /** `clearToken` logs out but leaves every cache in place for the next user to see until refetched. */
  function Logout(c: Client): (r: Client)
    ensures !r.session.isLoggedIn && r.session.token == ""
    ensures r.feeds == c.feeds && r.entries == c.entries
  {
    c.(session := Session.ClearToken(c.session))
  }

  /**
   * An entry fetch that reaches the server and is refused with 401 logs the
   * user out, while any other failure leaves the login as it was.
   */
  lemma UnauthorizedFetchLogsOut(c: Client, id: Id, kind: Entries.FetchType, force: bool, e: Error)
    requires force || c.entries.prevCall != Some(Entries.Signature(c.entries, id, kind))
    ensures var r := LoadEntries(c, id, kind, force, Err(e));
      && (r.session.isLoggedIn <==> c.session.isLoggedIn && e != HttpError(Some(401)))
      && r.entries.state == Failed
  {
  }

  /**
   * A counter response naming a feed the cache lacks is reported as a
   * TypeError: it never logs the user out and keeps the cached ids.
   */
  lemma UnknownFeedCounterKeepsLogin(c: Client, counts: Feeds.Counters)
    requires !(counts.readCounts.Keys <= c.feeds.feeds.Keys) || !(counts.unreadCounts.Keys <= c.feeds.feeds.Keys)
    ensures Feeds.GetFeedCounters(c.feeds, Ok(counts)).reported == Some(TypeError)
    ensures var r := LoadCounters(c, Ok(counts));
      r.session == c.session && r.feeds.feeds.Keys == c.feeds.feeds.Keys
  {
  }
}

=== FILE: common.dfy ===
/** Shared vocabulary of the client model: optional values and entity ids. */
module Common {

  /** An optional value; `None` plays the part of JavaScript's `undefined`. */
  datatype Option<+T> = None | Some(value: T)

  /**
   * Server-assigned identifiers of entries, feeds, categories and users. They
   * stay below 2^32 - 1, the range in which JavaScript treats an object key as
   * an array index and enumerates it in ascending order, and in which `${id}`
   * spells the plain decimal digits.
   */
  type Id = x: nat | x < 0xFFFF_FFFF

  /** `xs` is `ys` with some elements dropped and the rest kept in order. */
  predicate IsSubsequence<T(==)>(xs: seq<T>, ys: seq<T>)
    decreases |ys|
  {
    if xs == [] then true
    else if ys == [] then false
    else if xs[0] == ys[0] then IsSubsequence(xs[1..], ys[1..])
    else IsSubsequence(xs, ys[1..])
  }
}

=== FILE: decimal.dfy ===
/** Decimal rendering of ids, as a template literal `${id}` interpolates a number into a path. */
module Decimal {

  function DigitChar(d: nat): (c: char)
    requires d < 10
    ensures '0' <= c <= '9'
  {
    "0123456789"[d]
  }

  function DigitValue(c: char): nat
  {
    if '0' <= c <= '9' then (c as int - '0' as int) as nat else 0
  }

  predicate IsDigits(s: string)
  {
    forall i :: 0 <= i < |s| ==> '0' <= s[i] <= '9'
  }

  /** The shortest decimal spelling of `n`, without sign or leading zeros. */
  function Show(n: nat): (s: string)
    ensures 1 <= |s|
    ensures IsDigits(s)
    ensures |s| > 1 ==> s[0] != '0'
  {
    if n < 10 then [DigitChar(n)] else Show(n / 10) + [DigitChar(n % 10)]
  }

  /** Reads a digit string back as a number; the inverse of `Show`. */
  function Read(s: string): nat
  {
    if |s| == 0 then 0 else Read(s[..|s| - 1]) * 10 + DigitValue(s[|s| - 1])
  }

  lemma DigitRoundTrip(d: nat)
    requires d < 10
    ensures DigitValue(DigitChar(d)) == d
  {
    assert "0123456789"[0] == '0' && "0123456789"[1] == '1' && "0123456789"[2] == '2';
    assert "0123456789"[3] == '3' && "0123456789"[4] == '4' && "0123456789"[5] == '5';
    assert "0123456789"[6] == '6' && "0123456789"[7] == '7' && "0123456789"[8] == '8';
    assert "0123456789"[9] == '9';
  }

  /** Reading what `Show` wrote gives back the number. */
  lemma {:induction false} ReadShow(n: nat)
    ensures Read(Show(n)) == n
  {
    var s := Show(n);
    if n < 10 {
      DigitRoundTrip(n);
      assert s[..0] == [];
    } else {
      ReadShow(n / 10);
      DigitRoundTrip(n % 10);
      assert s[..|s| - 1] == Show(n / 10);
    }
  }

  /** Distinct numbers are shown as distinct strings. */
  lemma ShowInjective(a: nat, b: nat)
    ensures Show(a) == Show(b) ==> a == b
  {
    if Show(a) == Show(b) {
      ReadShow(a);
      ReadShow(b);
    }
  }
}

=== FILE: entries.dfy ===
/**
 * The entries store: one page of entries fetched under a filter, a memo of the
 * last successful call, the readiness signal, and the read/unread/star
 * mutations with their undo buffer.
 *
 * An entry object is identified by its id: a change the client makes to an
 * entry object shows in every entry of that id the store holds, in the page
 * and in the undo buffer alike.
 */
module Entries {
  import opened Common
  import opened Model
  import opened Api

  /** The scopes a page of entries is fetched from. */
  datatype FetchType = FeedScope | CategoryScope | AllScope

  /** The memo key of a fetch: scope id, scope type and a snapshot of the filter. */
  datatype CallParams = CallParams(id: Id, kind: FetchType, filter: EntryFilter)

  datatype Store = Store(
    entries: seq<Entry>,
    filter: EntryFilter,
    state: LoadState,
    total: int,
    prevCall: Option<CallParams>,
    marked: seq<Entry>)

  const Initial := Store([], InitialFilter, Init, 0, None, [])

  /** One page of entries as the server answers a listing. */
  datatype Page = Page(total: int, entries: seq<Entry>)

  datatype FetchStep = FetchStep(
    store: Store,
    request: Option<Request>,
    emitted: seq<LoadState>,
    returned: seq<Entry>,
    reported: Option<Error>)

  datatype Step = Step(store: Store, request: Option<Request>, reported: Option<Error>)

  /** The listing a scope is fetched from. */
  function ListingRoute(id: Id, kind: FetchType): (r: Route)
    ensures IsEntryListing(r)
  {
    match kind
    case FeedScope => FeedEntries(id)
    case CategoryScope => CategoryEntries(id)
    case AllScope => AllEntries
  }

  /**
   * The request path depends on the scope type and, except for all entries,
   * on the id; two calls are sent to one path exactly when those agree.
   */
  lemma ListingPathDistinguishesScopes(i: Id, k: FetchType, j: Id, l: FetchType)
    ensures Path(ListingRoute(i, k)) == Path(ListingRoute(j, l)) <==> k == l && (k == AllScope || i == j)
  {
    ListingPathInjective(ListingRoute(i, k), ListingRoute(j, l));
  }

  /** The signature the store would compare against `prevCall` for this call. */
  function Signature(s: Store, id: Id, kind: FetchType): CallParams
  {
    CallParams(id, kind, s.filter)
  }

  /** The request a fetch that misses the memo sends: the listing, with the current filter as query. */
  function ListingRequest(s: Store, id: Id, kind: FetchType): Request
  {
    Request(Get, ListingRoute(id, kind), Query(s.filter))
  }

  /**
   * `_getEntries(id, type, force)` given how its request settles. The signal
   * goes `loading` first. Unless forced, a call whose signature equals the
   * memo is answered from the page held, without a request. Otherwise the page
   * is cleared and requested: a response replaces page and total and becomes
   * the memo; a failure sets the signal to `error`, is reported, and leaves
   * the page empty and memo and total as they were. The action never throws.
   */
  function GetEntries(s: Store, id: Id, kind: FetchType, force: bool, outcome: Outcome<Page>): (r: FetchStep)
    ensures r.request.None? <==> !force && s.prevCall == Some(Signature(s, id, kind))
    ensures r.request.None? ==>
      && r.store == s.(state := Ready)
      && r.returned == s.entries
      && r.emitted == [Loading, Ready]
      && r.reported.None?
    ensures r.request.Some? ==> r.request == Some(ListingRequest(s, id, kind))
    ensures r.request.Some? && outcome.Ok? ==>
      && r.store.entries == outcome.payload.entries
      && r.store.total == outcome.payload.total
      && r.store.prevCall == Some(Signature(s, id, kind))
      && r.store.state == Ready
      && r.returned == outcome.payload.entries
      && r.emitted == [Loading, Ready]
      && r.reported.None?
    ensures r.request.Some? && outcome.Err? ==>
      && r.store.entries == []
      && r.store.total == s.total
      && r.store.prevCall == s.prevCall
      && r.store.state == Failed
      && r.returned == []
      && r.emitted == [Loading, Failed]
      && r.reported == Some(outcome.error)
    ensures r.store.filter == s.filter && r.store.marked == s.marked
    ensures 1 <= |r.emitted| && r.store.state == r.emitted[|r.emitted| - 1]
  {
    var call := Signature(s, id, kind);
    if !force && s.prevCall == Some(call) then
      FetchStep(s.(state := Ready), None, [Loading, Ready], s.entries, None)
    else
      var cleared := s.(entries := []);
      var request := Some(ListingRequest(s, id, kind));
      match outcome
      case Ok(page) =>
        var next := cleared.(total := page.total, entries := page.entries, state := Ready, prevCall := Some(call));
        FetchStep(next, request, [Loading, Ready], page.entries, None)
      case Err(e) =>
        FetchStep(cleared.(state := Failed), request, [Loading, Failed], [], Some(e))
  }

  function GetFeedEntries(s: Store, feedId: Id, force: bool, outcome: Outcome<Page>): (r: FetchStep)
    ensures r.request.Some? ==> r.request.value.route == FeedEntries(feedId)
    ensures r.request.None? <==> !force && s.prevCall == Some(CallParams(feedId, FeedScope, s.filter))
    ensures r.request.Some? && outcome.Ok? ==>
      && r.store.prevCall == Some(CallParams(feedId, FeedScope, s.filter))
      && r.store.entries == outcome.payload.entries && r.returned == outcome.payload.entries
      && r.store.state == Ready && r.reported.None?
    ensures r.request.Some? && outcome.Err? ==>
      r.store.state == Failed && r.returned == [] && r.reported == Some(outcome.error)
  {
    GetEntries(s, feedId, FeedScope, force, outcome)
  }

  function GetCategoryEntries(s: Store, categoryId: Id, force: bool, outcome: Outcome<Page>): (r: FetchStep)
    ensures r.request.Some? ==> r.request.value.route == CategoryEntries(categoryId)
    ensures r.request.None? <==> !force && s.prevCall == Some(CallParams(categoryId, CategoryScope, s.filter))
    ensures r.request.Some? && outcome.Ok? ==>
      && r.store.prevCall == Some(CallParams(categoryId, CategoryScope, s.filter))
      && r.store.entries == outcome.payload.entries && r.returned == outcome.payload.entries
      && r.store.state == Ready && r.reported.None?
    ensures r.request.Some? && outcome.Err? ==>
      r.store.state == Failed && r.returned == [] && r.reported == Some(outcome.error)
  {
    GetEntries(s, categoryId, CategoryScope, force, outcome)
  }

  /** All entries are fetched with scope id 0 from `/v1/entries`. */
  function GetAllEntries(s: Store, force: bool, outcome: Outcome<Page>): (r: FetchStep)
    ensures r.request.Some? ==> r.request.value.route == AllEntries && Path(r.request.value.route) == "/v1/entries"
    ensures r.request.None? <==> !force && s.prevCall == Some(CallParams(0, AllScope, s.filter))
    ensures r.request.Some? && outcome.Ok? ==>
      && r.store.prevCall == Some(CallParams(0, AllScope, s.filter))
      && r.store.entries == outcome.payload.entries && r.returned == outcome.payload.entries
      && r.store.state == Ready && r.reported.None?
    ensures r.request.Some? && outcome.Err? ==>
      r.store.state == Failed && r.returned == [] && r.reported == Some(outcome.error)
  {
    GetEntries(s, 0, AllScope, force, outcome)
  }

  /** The views edit the store's filter between fetches. */
  function WithFilter(s: Store, f: EntryFilter): (r: Store)
    ensures r.filter == f
    ensures r.prevCall == s.prevCall && r.entries == s.entries && r.state == s.state
  {
    s.(filter := f)
  }

  /** The first fetch of a fresh store always goes to the server. */
  lemma FirstFetchMisses(id: Id, kind: FetchType, force: bool, outcome: Outcome<Page>)
    ensures GetEntries(Initial, id, kind, force, outcome).request == Some(ListingRequest(Initial, id, kind))
  {
  }

  /** Right after a successful fetch, the same call is answered from memory with the page received. */
  lemma RepeatIsMemoized(s: Store, id: Id, kind: FetchType, force: bool, page: Page, later: Outcome<Page>)
    requires force || s.prevCall != Some(Signature(s, id, kind))
    ensures var s1 := GetEntries(s, id, kind, force, Ok(page)).store;
      var r := GetEntries(s1, id, kind, false, later);
      r.request.None? && r.returned == page.entries && r.store.total == page.total && r.store.state == Ready
  {
  }

  /**
   * The memo holds a snapshot of the filter: changing the store's filter after
   * a fetch leaves the memo as it was, and the next call with the changed
   * filter goes to the server.
   */
  lemma FilterChangeMisses(s: Store, id: Id, kind: FetchType, page: Page, f: EntryFilter, later: Outcome<Page>)
    requires f != s.filter
    ensures var s1 := GetEntries(s, id, kind, false, Ok(page)).store;
      var s2 := WithFilter(s1, f);
      && s2.prevCall == Some(CallParams(id, kind, s.filter))
      && GetEntries(s2, id, kind, false, later).request == Some(Request(Get, ListingRoute(id, kind), Query(f)))
  {
  }

  /** A retry after a failure reaches the server unless the memo already held the failed call's signature. */
  lemma RetryAfterFailure(s: Store, id: Id, kind: FetchType, force: bool, e: Error, later: Outcome<Page>)
    requires s.prevCall != Some(Signature(s, id, kind))
    ensures var s1 := GetEntries(s, id, kind, force, Err(e)).store;
      GetEntries(s1, id, kind, false, later).request.Some?
  {
  }

  /**
   * The memo outlives a failed fetch of another scope that emptied the page:
   * coming back to the previous scope is answered from memory with no entries.
   */
  lemma StaleHitAfterFailure(page: Page, e: Error, later: Outcome<Page>)
    requires page.entries != []
    ensures var s1 := GetEntries(Initial, 1, FeedScope, false, Ok(page)).store;
      var s2 := GetEntries(s1, 2, FeedScope, false, Err(e)).store;
      var r := GetEntries(s2, 1, FeedScope, false, later);
      r.request.None? && r.returned == [] && r.returned != page.entries
  {
  }

  /**
   * `_getEntries` with the memo dropped at the moment the page is cleared, so
   * that a memo is only ever held next to the page that answered it.
   */
  function GetEntriesCorrected(s: Store, id: Id, kind: FetchType, force: bool, outcome: Outcome<Page>): (r: FetchStep)
    ensures r.request.None? <==> !force && s.prevCall == Some(Signature(s, id, kind))
    ensures r.request.None? ==>
      && r.store == s.(state := Ready)
      && r.returned == s.entries
      && r.emitted == [Loading, Ready]
      && r.reported.None?
    ensures r.request.Some? ==> r.request == Some(ListingRequest(s, id, kind))
    ensures r.request.Some? && outcome.Ok? ==>
      && r.store.entries == outcome.payload.entries
      && r.store.total == outcome.payload.total
      && r.store.prevCall == Some(Signature(s, id, kind))
      && r.store.state == Ready
      && r.returned == outcome.payload.entries
      && r.emitted == [Loading, Ready]
      && r.reported.None?
    ensures r.request.Some? && outcome.Err? ==>
      && r.store.entries == []
      && r.store.total == s.total
      && r.store.prevCall.None?
      && r.store.state == Failed
      && r.returned == []
      && r.emitted == [Loading, Failed]
      && r.reported == Some(outcome.error)
    ensures r.store.filter == s.filter && r.store.marked == s.marked
    ensures 1 <= |r.emitted| && r.store.state == r.emitted[|r.emitted| - 1]
  {
    var call := Signature(s, id, kind);
    if !force && s.prevCall == Some(call) then
      FetchStep(s.(state := Ready), None, [Loading, Ready], s.entries, None)
    else
      var cleared := s.(entries := [], prevCall := None);
      var request := Some(ListingRequest(s, id, kind));
      match outcome
      case Ok(page) =>
        var next := cleared.(total := page.total, entries := page.entries, state := Ready, prevCall := Some(call));
        FetchStep(next, request, [Loading, Ready], page.entries, None)
      case Err(e) =>
        FetchStep(cleared.(state := Failed), request, [Loading, Failed], [], Some(e))
  }

  /** A store whose signal shows a failure holds no memo. */
  predicate MemoBacked(s: Store)
  {
    s.state == Failed ==> s.prevCall.None?
  }

  /** Every corrected fetch leaves a store that is `MemoBacked`. */
  lemma CorrectedKeepsMemoBacked(s: Store, id: Id, kind: FetchType, force: bool, o: Outcome<Page>)
    ensures MemoBacked(GetEntriesCorrected(s, id, kind, force, o).store)
  {
  }

  /** In a `MemoBacked` store that shows a failure, every fetch reaches the server. */
  lemma CorrectedRetryReachesServer(s: Store, id: Id, kind: FetchType, force: bool, o: Outcome<Page>)
    requires MemoBacked(s) && s.state == Failed
    ensures GetEntriesCorrected(s, id, kind, force, o).request == Some(ListingRequest(s, id, kind))
  {
  }

  /** The written fetch breaks `MemoBacked`: a failure can leave a memo behind. */
  lemma AsWrittenLeavesMemo(page: Page, e: Error)
    ensures var s1 := GetEntries(Initial, 1, FeedScope, false, Ok(page)).store;
      !MemoBacked(GetEntries(s1, 2, FeedScope, false, Err(e)).store)
  {
  }

  // ---------------------------------------------------------------------------
  // Mutations

  /** Gives every entry of an id in `ids` the status `st`. */
  function Restatus(es: seq<Entry>, ids: set<Id>, st: EntryStatus): (r: seq<Entry>)
    ensures |r| == |es|
    ensures forall i :: 0 <= i < |es| ==> r[i] == if es[i].id in ids then es[i].(status := st) else es[i]
  {
    seq(|es|, i requires 0 <= i < |es| => if es[i].id in ids then es[i].(status := st) else es[i])
  }

  /** Gives every entry of the ids in `ids` the status `st`, in the page and in the undo buffer. */
  function SetStatus(s: Store, ids: set<Id>, st: EntryStatus): Store
  {
    s.(entries := Restatus(s.entries, ids, st), marked := Restatus(s.marked, ids, st))
  }

  /** The part of a store that entry mutations leave alone. */
  predicate SameListing(s: Store, t: Store)
  {
    s.filter == t.filter && s.state == t.state && s.total == t.total && s.prevCall == t.prevCall
  }

  function StatusRequest(ids: seq<Id>, st: EntryStatus): Request
  {
    Request(Put, EntryStatuses, StatusChange(ids, st))
  }

  /** `markAsRead(entry)`: asks the server, and only on success marks the entry read. */
  function MarkAsRead(s: Store, entry: Entry, outcome: Outcome<()>): (r: Step)
    ensures r.request == Some(StatusRequest([entry.id], Read))
    ensures SameListing(r.store, s)
    ensures |r.store.entries| == |s.entries|
    ensures outcome.Ok? ==> forall i :: 0 <= i < |s.entries| ==>
      r.store.entries[i] == if s.entries[i].id == entry.id then s.entries[i].(status := Read) else s.entries[i]
    ensures outcome.Ok? ==>
      && |r.store.marked| == |s.marked|
      && (forall i :: 0 <= i < |s.marked| ==>
            r.store.marked[i] == if s.marked[i].id == entry.id then s.marked[i].(status := Read) else s.marked[i])
      && r.reported.None?
    ensures outcome.Err? ==> r.store == s && r.reported == Some(outcome.error)
  {
    var request := Some(StatusRequest([entry.id], Read));
    match outcome
    case Ok(_) => Step(SetStatus(s, {entry.id}, Read), request, None)
    case Err(e) => Step(s, request, Some(e))
  }

  /** `markAsUnread(entry)`: asks the server, and only on success marks the entry unread. */
  function MarkAsUnread(s: Store, entry: Entry, outcome: Outcome<()>): (r: Step)
    ensures r.request == Some(StatusRequest([entry.id], Unread))
    ensures SameListing(r.store, s)
    ensures |r.store.entries| == |s.entries|
    ensures outcome.Ok? ==> forall i :: 0 <= i < |s.entries| ==>
      r.store.entries[i] == if s.entries[i].id == entry.id then s.entries[i].(status := Unread) else s.entries[i]
    ensures outcome.Ok? ==>
      && |r.store.marked| == |s.marked|
      && (forall i :: 0 <= i < |s.marked| ==>
            r.store.marked[i] == if s.marked[i].id == entry.id then s.marked[i].(status := Unread) else s.marked[i])
      && r.reported.None?
    ensures outcome.Err? ==> r.store == s && r.reported == Some(outcome.error)
  {
    var request := Some(StatusRequest([entry.id], Unread));
    match outcome
    case Ok(_) => Step(SetStatus(s, {entry.id}, Unread), request, None)
    case Err(e) => Step(s, request, Some(e))
  }

  /** Sets the star of every entry of one id. */
  function Restar(es: seq<Entry>, id: Id, starred: bool): (r: seq<Entry>)
    ensures |r| == |es|
    ensures forall i :: 0 <= i < |es| ==> r[i] == if es[i].id == id then es[i].(starred := starred) else es[i]
  {
    seq(|es|, i requires 0 <= i < |es| => if es[i].id == id then es[i].(starred := starred) else es[i])
  }

  /** `toggleStar(entry)`: asks the server to flip the bookmark, and only on success negates the entry's star. */
  function ToggleStar(s: Store, entry: Entry, outcome: Outcome<()>): (r: Step)
    ensures r.request == Some(Request(Put, Bookmark(entry.id), NoPayload))
    ensures SameListing(r.store, s)
    ensures |r.store.entries| == |s.entries|
    ensures outcome.Ok? ==> forall i :: 0 <= i < |s.entries| ==>
      r.store.entries[i] == if s.entries[i].id == entry.id then s.entries[i].(starred := !entry.starred) else s.entries[i]
    ensures outcome.Ok? ==>
      && |r.store.marked| == |s.marked|
      && (forall i :: 0 <= i < |s.marked| ==>
            r.store.marked[i] == if s.marked[i].id == entry.id then s.marked[i].(starred := !entry.starred) else s.marked[i])
      && r.reported.None?
    ensures outcome.Err? ==> r.store == s && r.reported == Some(outcome.error)
  {
    var request := Some(Request(Put, Bookmark(entry.id), NoPayload));
    match outcome
    case Ok(_) =>
      var flipped := !entry.starred;
      Step(s.(entries := Restar(s.entries, entry.id, flipped), marked := Restar(s.marked, entry.id, flipped)), request, None)
    case Err(e) => Step(s, request, Some(e))
  }

  /** The unread entries of a list, in order. */
  function UnreadOf(es: seq<Entry>): (r: seq<Entry>)
    ensures forall e :: e in r <==> e in es && e.status == Unread
    ensures |r| <= |es|
  {
    if es == [] then []
    else
      var rest := UnreadOf(es[1..]);
      assert forall e :: e in es <==> e == es[0] || e in es[1..];
      if es[0].status == Unread then [es[0]] + rest else rest
  }

  /**
   * `UnreadOf` is the filter that keeps order and repetition: it is a
   * subsequence of its input holding every unread entry as often as the input
   * does, and nothing else. Those two facts leave exactly one candidate.
   */
  lemma {:induction false} UnreadOfKeepsOrder(es: seq<Entry>)
    ensures IsSubsequence(UnreadOf(es), es)
    ensures forall e :: multiset(UnreadOf(es))[e] == if e.status == Unread then multiset(es)[e] else 0
  {
    if es != [] {
      var rest := UnreadOf(es[1..]);
      UnreadOfKeepsOrder(es[1..]);
      assert es == [es[0]] + es[1..];
      if es[0].status == Unread {
        assert UnreadOf(es)[1..] == rest;
      }
    }
  }

  function IdList(es: seq<Entry>): (r: seq<Id>)
    ensures |r| == |es|
    ensures forall i :: 0 <= i < |es| ==> r[i] == es[i].id
  {
    seq(|es|, i requires 0 <= i < |es| => es[i].id)
  }

  function IdSet(es: seq<Entry>): set<Id>
  {
    set e | e in es :: e.id
  }

  /**
   * `markEntriesAsRead(entries)`: sends the ids of the unread ones among the
   * given entries. With none it sends nothing and changes nothing. On success
   * those entries become read and the undo buffer holds exactly them; on
   * failure nothing changes.
   */
  function MarkEntriesAsRead(s: Store, given: seq<Entry>, outcome: Outcome<()>): (r: Step)
    ensures UnreadOf(given) == [] ==> r.request.None? && r.store == s && r.reported.None?
    ensures UnreadOf(given) != [] ==> r.request == Some(StatusRequest(IdList(UnreadOf(given)), Read))
    ensures SameListing(r.store, s)
    ensures |r.store.entries| == |s.entries|
    ensures UnreadOf(given) != [] && outcome.Ok? ==>
      && (forall i :: 0 <= i < |s.entries| ==>
            r.store.entries[i] == if s.entries[i].id in IdSet(UnreadOf(given)) then s.entries[i].(status := Read) else s.entries[i])
      && |r.store.marked| == |UnreadOf(given)|
      && (forall i :: 0 <= i < |r.store.marked| ==> r.store.marked[i] == UnreadOf(given)[i].(status := Read))
      && r.reported.None?
    ensures UnreadOf(given) != [] && outcome.Err? ==> r.store == s && r.reported == Some(outcome.error)
  {
    var unread := UnreadOf(given);
    var ids := IdList(unread);
    if |ids| == 0 then Step(s, None, None)
    else
      var request := Some(StatusRequest(ids, Read));
      match outcome
      case Ok(_) =>
        var idSet := IdSet(unread);
        assert forall e :: e in unread ==> e.id in idSet;
        var marked := SetStatus(s, idSet, Read);
        Step(marked.(marked := Restatus(unread, idSet, Read)), request, None)
      case Err(e) => Step(s, request, Some(e))
  }

  /**
   * `undoMarkEntries()`: sends the ids of the undo buffer back to unread. An
   * empty buffer sends nothing. On success every buffered entry becomes
   * unread and the buffer is kept; on failure nothing changes.
   */
  function UndoMarkEntries(s: Store, outcome: Outcome<()>): (r: Step)
    ensures s.marked == [] ==> r.request.None? && r.store == s && r.reported.None?
    ensures s.marked != [] ==> r.request == Some(StatusRequest(IdList(s.marked), Unread))
    ensures SameListing(r.store, s)
    ensures |r.store.entries| == |s.entries|
    ensures IdList(r.store.marked) == IdList(s.marked)
    ensures s.marked != [] && outcome.Ok? ==>
      && (forall i :: 0 <= i < |s.entries| ==>
            r.store.entries[i] == if s.entries[i].id in IdSet(s.marked) then s.entries[i].(status := Unread) else s.entries[i])
      && (forall i :: 0 <= i < |s.marked| ==> r.store.marked[i] == s.marked[i].(status := Unread))
      && r.reported.None?
    ensures s.marked != [] && outcome.Err? ==> r.store == s && r.reported == Some(outcome.error)
  {
    var ids := IdList(s.marked);
    if |ids| == 0 then Step(s, None, None)
    else
      var request := Some(StatusRequest(ids, Unread));
      match outcome
      case Ok(_) =>
        assert forall e :: e in s.marked ==> e.id in IdSet(s.marked);
        Step(SetStatus(s, IdSet(s.marked), Unread), request, None)
      case Err(e) => Step(s, request, Some(e))
  }

  /** Two lists with the same ids position by position have the same id set. */
  lemma SameIdSet(xs: seq<Entry>, ys: seq<Entry>)
    requires |xs| == |ys| && forall i :: 0 <= i < |xs| ==> xs[i].id == ys[i].id
    ensures IdSet(xs) == IdSet(ys)
  {
    forall e | e in xs ensures e.id in IdSet(ys) {
      var i :| 0 <= i < |xs| && xs[i] == e;
      assert ys[i] in ys;
    }
    forall e | e in ys ensures e.id in IdSet(xs) {
      var i :| 0 <= i < |ys| && ys[i] == e;
      assert xs[i] in xs;
    }
  }

  /** Undoing twice in a row leaves the store as undoing once. */
  lemma UndoIdempotent(s: Store, o1: Outcome<()>, o2: Outcome<()>)
    requires o1.Ok?
    ensures var s1 := UndoMarkEntries(s, o1).store;
      UndoMarkEntries(s1, o2).store == s1
  {
    var s1 := UndoMarkEntries(s, o1).store;
    if s.marked != [] {
      SameIdSet(s1.marked, s.marked);
      var r := UndoMarkEntries(s1, o2).store;
      if o2.Ok? {
        assert r.entries == s1.entries;
        assert r.marked == s1.marked;
      }
    }
  }

  /** No two entries of the page share an id. */
  ghost predicate DistinctIds(es: seq<Entry>)
  {
    forall i, j :: 0 <= i < j < |es| ==> es[i].id != es[j].id
  }

  /** In a page of distinct ids, an entry whose id is among the unread ones is itself unread. */
  lemma UnreadById(es: seq<Entry>, i: int)
    requires DistinctIds(es) && 0 <= i < |es| && es[i].id in IdSet(UnreadOf(es))
    ensures es[i].status == Unread
  {
    var u :| u in UnreadOf(es) && u.id == es[i].id;
    var j :| 0 <= j < |es| && es[j] == u;
    assert i == j;
  }

  /**
   * Marking the whole page read and undoing it, both successfully, gives back
   * the page as it was: exactly its unread entries were marked and are unread
   * again. (With no unread entry the mark is a no-op and the undo replays an
   * older buffer.)
   */
  lemma MarkPageThenUndo(s: Store, o1: Outcome<()>, o2: Outcome<()>)
    requires DistinctIds(s.entries) && UnreadOf(s.entries) != []
    requires o1.Ok? && o2.Ok?
    ensures var s1 := MarkEntriesAsRead(s, s.entries, o1).store;
      UndoMarkEntries(s1, o2).store.entries == s.entries
  {
    var unread := UnreadOf(s.entries);
    if unread != [] {
      var s1 := MarkEntriesAsRead(s, s.entries, o1).store;
      var s2 := UndoMarkEntries(s1, o2).store;
      var ids := IdSet(unread);
      SameIdSet(s1.marked, unread);
      assert s1.marked != [];
      forall i | 0 <= i < |s.entries|
        ensures s2.entries[i] == s.entries[i]
      {
        if s.entries[i].id in ids {
          UnreadById(s.entries, i);
        }
      }
    }
  }

  /** Starring twice, both successfully, gives back the page as it was. */
  lemma ToggleStarTwice(s: Store, i: int, o1: Outcome<()>, o2: Outcome<()>)
    requires 0 <= i < |s.entries| && DistinctIds(s.entries)
    requires o1.Ok? && o2.Ok?
    ensures var e := s.entries[i];
      var s1 := ToggleStar(s, e, o1).store;
      ToggleStar(s1, s1.entries[i], o2).store.entries == s.entries
  {
    var e := s.entries[i];
    var s1 := ToggleStar(s, e, o1).store;
    var s2 := ToggleStar(s1, s1.entries[i], o2).store;
    forall j | 0 <= j < |s.entries|
      ensures s2.entries[j] == s.entries[j]
    {
      if s.entries[j].id == e.id {
        assert j == i;
      }
    }
  }

  /** Marking an unread entry read and then unread, both successfully, gives back the page. */
  lemma ReadThenUnread(s: Store, i: int, o1: Outcome<()>, o2: Outcome<()>)
    requires 0 <= i < |s.entries| && DistinctIds(s.entries) && s.entries[i].status == Unread
    requires o1.Ok? && o2.Ok?
    ensures var e := s.entries[i];
      MarkAsUnread(MarkAsRead(s, e, o1).store, e, o2).store.entries == s.entries
  {
    var e := s.entries[i];
    var s2 := MarkAsUnread(MarkAsRead(s, e, o1).store, e, o2).store;
    forall j | 0 <= j < |s.entries|
      ensures s2.entries[j] == s.entries[j]
    {
      if s.entries[j].id == e.id {
        assert j == i;
      }
    }
  }
}

=== FILE: feeds.dfy ===
/**
 * The feeds store: feeds cached by id, their attachment to categories, and
 * the read/unread counters applied from the server.
 */
module Feeds {
  import opened Common
  import opened Model
  import opened Api
  import ObjectKeys

  datatype Store = Store(feeds: map<Id, Feed>, state: LoadState)

  const Empty := Store(map[], Init)

  /** A category together with the feeds attached to it. */
  datatype CategoryFeeds = CategoryFeeds(category: Category, feeds: seq<Feed>)

  /**
   * What `getFeeds` leaves behind: the new store, the request sent, the signal
   * values emitted, the list returned, the categories with their feeds when
   * attachment ran, and the error handed to `showError`.
   */
  datatype Step = Step(
    store: Store,
    request: Option<Request>,
    emitted: seq<LoadState>,
    returned: seq<Feed>,
    attached: Option<seq<CategoryFeeds>>,
    reported: Option<Error>)

  /** Read and unread counts per feed id, as `/v1/feeds/counters` answers. */
  datatype Counters = Counters(readCounts: map<Id, int>, unreadCounts: map<Id, int>)

  datatype CountersStep = CountersStep(store: Store, request: Option<Request>, reported: Option<Error>)

  const FeedsRequest := Request(Get, AllFeeds, NoPayload)

  const CountersRequest := Request(Get, FeedCounters, NoPayload)

  /** Every feed is stored under its own id. */
  ghost predicate Keyed(m: map<Id, Feed>)
  {
    forall k :: k in m ==> m[k].id == k
  }

  ghost predicate IncreasingIds(fs: seq<Feed>)
  {
    forall i, j :: 0 <= i < j < |fs| ==> fs[i].id < fs[j].id
  }

  function ValuesAt(m: map<Id, Feed>, ks: seq<Id>): (r: seq<Feed>)
    requires forall k :: k in ks ==> k in m
    ensures |r| == |ks|
    ensures forall i :: 0 <= i < |ks| ==> r[i] == m[ks[i]]
  {
    if ks == [] then [] else [m[ks[0]]] + ValuesAt(m, ks[1..])
  }

  /** The `feeds` getter: the cached feeds in the order the id-keyed object enumerates them. */
  function FeedList(m: map<Id, Feed>): (r: seq<Feed>)
    ensures |r| == |m|
    ensures forall f :: f in r <==> f in m.Values
    ensures Keyed(m) ==> IncreasingIds(r)
  {
    var ks := ObjectKeys.Sorted(m.Keys);
    ValuesCovered(m, ks);
    ValuesAt(m, ks)
  }

  lemma ValuesCovered(m: map<Id, Feed>, ks: seq<Id>)
    requires forall k :: k in ks <==> k in m
    ensures forall f :: f in ValuesAt(m, ks) <==> f in m.Values
  {
    var r := ValuesAt(m, ks);
    forall f | f in m.Values
      ensures f in r
    {
      var k :| k in m && m[k] == f;
      var i :| 0 <= i < |ks| && ks[i] == k;
      assert r[i] == f;
    }
  }

  /** A feed as `getFeeds` stores it: counters zeroed until the next counter fetch. */
  function Fresh(f: Feed): Feed
  {
    f.(read := 0, unread := 0)
  }

  function Ids(list: seq<Feed>): set<Id>
  {
    set f | f in list :: f.id
  }

  /** No later feed of `list` has the id of `list[i]`. */
  ghost predicate LastOfItsId(list: seq<Feed>, i: int)
    requires 0 <= i < |list|
  {
    forall j :: i < j < |list| ==> list[j].id != list[i].id
  }

  /**
   * Stores each received feed under its id, in the order received: a merge into
   * the cache, in which a later feed of the same id wins and ids absent from the
   * response keep their cached feed.
   */
  function Merge(m: map<Id, Feed>, list: seq<Feed>): (r: map<Id, Feed>)
    decreases |list|
    ensures r.Keys == m.Keys + Ids(list)
    ensures forall k :: k in m && k !in Ids(list) ==> r[k] == m[k]
    ensures forall i :: 0 <= i < |list| && LastOfItsId(list, i) ==> r[list[i].id] == Fresh(list[i])
    ensures forall f :: f in list ==> r[f.id].read == 0 && r[f.id].unread == 0
    ensures Keyed(m) ==> Keyed(r)
  {
    if list == [] then m
    else
      var f, tail := list[0], list[1..];
      var m1 := m[f.id := Fresh(f)];
      var r := Merge(m1, tail);
      IdsCons(list);
      forall i | 0 <= i < |list| && LastOfItsId(list, i)
        ensures r[list[i].id] == Fresh(list[i])
      {
        if i == 0 {
          LastIdNotInTail(list);
        } else {
          assert tail[i - 1] == list[i];
          assert LastOfItsId(tail, i - 1);
        }
      }
      forall g | g in list
        ensures r[g.id].read == 0 && r[g.id].unread == 0
      {
        if g != f {
          assert g in tail;
        } else if f.id !in Ids(tail) {
          assert r[f.id] == m1[f.id];
        }
      }
      r
  }

  lemma IdsCons(list: seq<Feed>)
    requires list != []
    ensures Ids(list) == {list[0].id} + Ids(list[1..])
  {
    assert forall f :: f in list <==> f == list[0] || f in list[1..];
  }

  lemma LastIdNotInTail(list: seq<Feed>)
    requires list != [] && LastOfItsId(list, 0)
    ensures list[0].id !in Ids(list[1..])
  {
  }

  /** Every feed whose category has the given id, in cache order. */
  function InCategory(fs: seq<Feed>, categoryId: Id): (r: seq<Feed>)
    ensures forall f :: f in r <==> f in fs && f.category.id == categoryId
    ensures |r| <= |fs|
  {
    if fs == [] then []
    else
      var rest := InCategory(fs[1..], categoryId);
      assert forall f :: f in fs <==> f == fs[0] || f in fs[1..];
      if fs[0].category.id == categoryId then [fs[0]] + rest else rest
  }

  /** `InCategory` keeps order and repetition: it is the order-preserving filter of its input. */
  lemma {:induction false} InCategoryKeepsOrder(fs: seq<Feed>, categoryId: Id)
    ensures IsSubsequence(InCategory(fs, categoryId), fs)
    ensures forall f :: multiset(InCategory(fs, categoryId))[f] == if f.category.id == categoryId then multiset(fs)[f] else 0
  {
    if fs != [] {
      var rest := InCategory(fs[1..], categoryId);
      InCategoryKeepsOrder(fs[1..], categoryId);
      assert fs == [fs[0]] + fs[1..];
      if fs[0].category.id == categoryId {
        assert InCategory(fs, categoryId)[1..] == rest;
      }
    }
  }

  /** Each category's list keeps the cache's enumeration order (ascending id, see `FeedList`). */
  lemma AttachKeepsOrder(categories: seq<Category>, m: map<Id, Feed>, i: int)
    requires 0 <= i < |categories|
    ensures IsSubsequence(Attach(categories, m)[i].feeds, FeedList(m))
  {
    InCategoryKeepsOrder(FeedList(m), categories[i].id);
  }

  /** Gives each category the list of cached feeds whose category id equals its own. */
  function Attach(categories: seq<Category>, m: map<Id, Feed>): (r: seq<CategoryFeeds>)
    ensures |r| == |categories|
    ensures forall i :: 0 <= i < |r| ==> r[i].category == categories[i]
    ensures forall i, f :: 0 <= i < |r| ==>
      (f in r[i].feeds <==> f in m.Values && f.category.id == categories[i].id)
  {
    var all := FeedList(m);
    seq(|categories|, i requires 0 <= i < |categories| => CategoryFeeds(categories[i], InCategory(all, categories[i].id)))
  }

  /** With distinct category ids, no feed is attached to two categories. */
  lemma AttachedOnce(categories: seq<Category>, m: map<Id, Feed>)
    requires forall a, b :: 0 <= a < b < |categories| ==> categories[a].id != categories[b].id
    ensures var r := Attach(categories, m);
      forall i, j, f :: 0 <= i < |r| && 0 <= j < |r| && f in r[i].feeds && f in r[j].feeds ==> i == j
  {
    var r := Attach(categories, m);
    forall i, j, f | 0 <= i < |r| && 0 <= j < |r| && f in r[i].feeds && f in r[j].feeds
      ensures i == j
    {
      assert f.category.id == categories[i].id == categories[j].id;
    }
  }

  /**
   * `getFeeds(refresh)` given how its request settles and the category list the
   * categories store hands over. A non-empty cache answers without a request
   * and without touching the signal. Otherwise it does what `Refetch` says.
   */
  function GetFeeds(s: Store, refresh: bool, outcome: Outcome<seq<Feed>>, categories: seq<Category>): (r: Step)
    ensures !refresh && |s.feeds| > 0 ==>
      r.store == s && r.request.None? && r.emitted == [] && r.attached.None? && r.reported.None?
    ensures refresh || |s.feeds| == 0 ==>
      && r.request == Some(FeedsRequest)
      && r.emitted == [Loading, Ready]
      && r.store.state == Ready
      && r.attached == Some(Attach(categories, r.store.feeds))
      && |r.attached.value| == |categories|
      && (forall i, f :: 0 <= i < |categories| ==>
            (f in r.attached.value[i].feeds <==> f in r.store.feeds.Values && f.category.id == categories[i].id))
    ensures refresh || |s.feeds| == 0 ==> match outcome
      case Ok(list) =>
        && r.store.feeds.Keys == s.feeds.Keys + Ids(list)
        && (forall k :: k in s.feeds && k !in Ids(list) ==> r.store.feeds[k] == s.feeds[k])
        && (forall i :: 0 <= i < |list| && LastOfItsId(list, i) ==> r.store.feeds[list[i].id] == Fresh(list[i]))
        && r.reported.None?
      case Err(e) => r.store.feeds == s.feeds && r.reported == Some(e)
    ensures forall f :: f in r.returned <==> f in r.store.feeds.Values
    ensures Keyed(s.feeds) ==> Keyed(r.store.feeds) && IncreasingIds(r.returned)
  {
    if !refresh && |s.feeds| > 0 then
      Step(s, None, [], FeedList(s.feeds), None, None)
    else
      Refetch(s, outcome, categories)
  }

  /**
   * The fetching half of `getFeeds`: the signal goes `loading`, the response is
   * merged into the cache (a failure is reported and leaves the cache alone),
   * the categories get their feeds, and only then does the signal go `ready`,
   * whether or not the request succeeded.
   */
  function Refetch(s: Store, outcome: Outcome<seq<Feed>>, categories: seq<Category>): (r: Step)
    ensures r.request == Some(FeedsRequest)
    ensures r.emitted == [Loading, Ready]
    ensures r.store.state == Ready
    ensures r.attached == Some(Attach(categories, r.store.feeds))
    ensures match outcome
      case Ok(list) =>
        && r.store.feeds.Keys == s.feeds.Keys + Ids(list)
        && (forall k :: k in s.feeds && k !in Ids(list) ==> r.store.feeds[k] == s.feeds[k])
        && (forall i :: 0 <= i < |list| && LastOfItsId(list, i) ==> r.store.feeds[list[i].id] == Fresh(list[i]))
        && r.reported.None?
      case Err(e) => r.store.feeds == s.feeds && r.reported == Some(e)
    ensures forall f :: f in r.returned <==> f in r.store.feeds.Values
    ensures Keyed(s.feeds) ==> Keyed(r.store.feeds) && IncreasingIds(r.returned)
  {
    var (m, reported) := Settle(s.feeds, outcome);
    Step(Store(m, Ready), Some(FeedsRequest), [Loading, Ready], FeedList(m), Some(Attach(categories, m)), reported)
  }

  /** The cache after the feeds request settles, and the error to report. */
  function Settle(feeds: map<Id, Feed>, outcome: Outcome<seq<Feed>>): (r: (map<Id, Feed>, Option<Error>))
    ensures match outcome
      case Ok(list) =>
        && r.0.Keys == feeds.Keys + Ids(list)
        && (forall k :: k in feeds && k !in Ids(list) ==> r.0[k] == feeds[k])
        && (forall i :: 0 <= i < |list| && LastOfItsId(list, i) ==> r.0[list[i].id] == Fresh(list[i]))
        && r.1.None?
      case Err(e) => r.0 == feeds && r.1 == Some(e)
    ensures Keyed(feeds) ==> Keyed(r.0)
  {
    match outcome
    case Ok(list) => (Merge(feeds, list), None)
    case Err(e) => (feeds, Some(e))
  }

  /**
   * `getFeeds` as written: the categories store's fetch resolves with
   * no value, so the attachment callback throws on `forEach` before it can emit
   * `ready`; the rejection is not reported to the error sink.
   */
  function GetFeedsAsWritten(s: Store, refresh: bool, outcome: Outcome<seq<Feed>>): (r: Step)
    ensures !refresh && |s.feeds| > 0 ==> r.store == s && r.request.None? && r.emitted == []
    ensures refresh || |s.feeds| == 0 ==>
      r.request == Some(FeedsRequest) && r.emitted == [Loading] && r.store.state == Loading && r.attached.None?
    ensures outcome.Err? ==> r.store.feeds == s.feeds
  {
    if !refresh && |s.feeds| > 0 then
      Step(s, None, [], FeedList(s.feeds), None, None)
    else
      var (m, reported) := match outcome
        case Ok(list) => (Merge(s.feeds, list), None)
        case Err(e) => (s.feeds, Some(e));
      Step(Store(m, Loading), Some(FeedsRequest), [Loading], FeedList(m), None, reported)
  }

  /**
   * Whenever the written `getFeeds` sends its request, the signal is left at
   * `loading` where the corrected action reaches `ready`; the cache and the
   * returned list are the same in both.
   */
  lemma AsWrittenNeverReady(s: Store, outcome: Outcome<seq<Feed>>, categories: seq<Category>)
    ensures GetFeedsAsWritten(s, true, outcome).store.state == Loading
    ensures GetFeeds(s, true, outcome, categories).store.state == Ready
    ensures GetFeedsAsWritten(s, true, outcome).store.feeds == GetFeeds(s, true, outcome, categories).store.feeds
    ensures GetFeedsAsWritten(s, true, outcome).returned == GetFeeds(s, true, outcome, categories).returned
  {
  }

  /** Sets one of the two counters of a feed. */
  function WithCount(f: Feed, v: int, unread: bool): Feed
  {
    if unread then f.(unread := v) else f.(read := v)
  }

  /** How many leading ids of `ks` are cached; the walk over `ks` gets that far before it throws. */
  function Reached(ks: seq<Id>, m: map<Id, Feed>): (p: nat)
    ensures p <= |ks|
    ensures forall i :: 0 <= i < p ==> ks[i] in m
    ensures p < |ks| ==> ks[p] !in m
  {
    if ks == [] || ks[0] !in m then 0 else 1 + Reached(ks[1..], m)
  }

  datatype Applied = Applied(feeds: map<Id, Feed>, complete: bool)

  /**
   * Writes `counts[k]` into the feed cached under each `k` of `ks` in turn,
   * stopping with a TypeError at the first id the cache does not hold; the
   * writes made before it stay.
   */
  function ApplyCounts(m: map<Id, Feed>, ks: seq<Id>, counts: map<Id, int>, unread: bool): (r: Applied)
    requires forall k :: k in ks ==> k in counts
    ensures r.feeds.Keys == m.Keys
    ensures r.complete <==> Reached(ks, m) == |ks|
    ensures forall k :: k in m ==>
      r.feeds[k] == if k in ks[..Reached(ks, m)] then WithCount(m[k], counts[k], unread) else m[k]
  {
    if ks == [] then Applied(m, true)
    else if ks[0] !in m then Applied(m, false)
    else
      var k := ks[0];
      var r := ApplyCounts(m[k := WithCount(m[k], counts[k], unread)], ks[1..], counts, unread);
      assert Reached(ks, m) == 1 + Reached(ks[1..], m[k := WithCount(m[k], counts[k], unread)]) by {
        ReachedSameKeys(ks[1..], m, m[k := WithCount(m[k], counts[k], unread)]);
      }
      assert forall j :: j in ks[..Reached(ks, m)] <==> j == k || j in ks[1..][..Reached(ks[1..], m)];
      r
  }

  lemma {:induction false} ReachedSameKeys(ks: seq<Id>, m: map<Id, Feed>, n: map<Id, Feed>)
    requires m.Keys == n.Keys
    ensures Reached(ks, m) == Reached(ks, n)
  {
    if ks != [] && ks[0] in m {
      ReachedSameKeys(ks[1..], m, n);
    }
  }

  /**
   * Over ids in ascending order, the walk gets exactly as far as the least id
   * the cache is missing: an id is written iff it is below that one.
   */
  lemma ReachedIsLeastMissing(ks: seq<Id>, m: map<Id, Feed>, k: Id)
    requires ObjectKeys.StrictlyIncreasing(ks)
    requires k in ks
    ensures k in ks[..Reached(ks, m)] <==> (forall j :: j in ks && j !in m ==> k < j)
  {
    var p := Reached(ks, m);
    var i :| 0 <= i < |ks| && ks[i] == k;
    if i < p {
      assert k in ks[..p];
      forall j | j in ks && j !in m
        ensures k < j
      {
        var t :| 0 <= t < |ks| && ks[t] == j;
        assert p <= t;
      }
    } else {
      assert ks[p] in ks && ks[p] !in m && ks[p] <= k;
    }
  }

  /** The least id of `counts` that the cache lacks, if any. */
  function FirstMissing(counts: map<Id, int>, cached: set<Id>): (r: Option<Id>)
    ensures r.None? <==> counts.Keys <= cached
    ensures r.Some? ==> r.value in counts && r.value !in cached
    ensures r.Some? ==> forall j :: j in counts && j !in cached ==> r.value <= j
  {
    if counts.Keys <= cached then None
    else
      var missing := counts.Keys - cached;
      assert forall j :: j in counts && j !in cached ==> j in missing;
      assert missing != {} by {
        var j :| j in counts.Keys && j !in cached;
        assert j in missing;
      }
      Some(ObjectKeys.Least(missing))
  }

  /** `k` comes before the id at which a walk over `counts` throws, if it throws. */
  predicate BeforeFirstMissing(k: Id, counts: map<Id, int>, cached: set<Id>)
  {
    var first := FirstMissing(counts, cached);
    first.None? || k < first.value
  }

  /** The counts a response leaves on the feed cached under `k`, when every id it names is cached. */
  function Counted(f: Feed, k: Id, c: Counters): Feed
  {
    f.(read := if k in c.readCounts then c.readCounts[k] else f.read,
       unread := if k in c.unreadCounts then c.unreadCounts[k] else f.unread)
  }

  /** Two feeds that differ at most in their counters. */
  predicate SameButCounts(f: Feed, g: Feed)
  {
    f.(read := 0, unread := 0) == g.(read := 0, unread := 0)
  }

  /**
   * Writes one counter map into the cache, ids in ascending order. An id the
   * cache lacks makes the write throw a TypeError: the ids below it have been
   * written, the ones from it on have not.
   */
  function ApplyAll(m: map<Id, Feed>, counts: map<Id, int>, unread: bool): (r: Applied)
    ensures r.feeds.Keys == m.Keys
    ensures r.complete <==> counts.Keys <= m.Keys
    ensures forall k :: k in m ==>
      r.feeds[k] == (if k in counts && BeforeFirstMissing(k, counts, m.Keys) then WithCount(m[k], counts[k], unread) else m[k])
  {
    var ks := ObjectKeys.Sorted(counts.Keys);
    var a := ApplyCounts(m, ks, counts, unread);
    ApplyCountsComplete(m, ks, counts.Keys);
    forall k | k in m && k in counts
      ensures k in ks[..Reached(ks, m)] <==> BeforeFirstMissing(k, counts, m.Keys)
    {
      ReachedIsLeastMissing(ks, m, k);
    }
    a
  }

  /**
   * The feed a counter response leaves under `k`: read counts are written for
   * ids in ascending order, then unread counts likewise. An id the cache lacks
   * makes a write throw a TypeError; the writes before it stay and every later
   * one, of either walk, is skipped.
   */
  function AfterCounters(m: map<Id, Feed>, k: Id, c: Counters): (f: Feed)
    requires k in m
    ensures SameButCounts(f, m[k])
    ensures k !in c.readCounts && k !in c.unreadCounts ==> f == m[k]
    ensures c.readCounts.Keys <= m.Keys && c.unreadCounts.Keys <= m.Keys ==> f == Counted(m[k], k, c)
    ensures !(c.readCounts.Keys <= m.Keys) ==> f.unread == m[k].unread
  {
    var f := m[k];
    var afterReads :=
      if k in c.readCounts && BeforeFirstMissing(k, c.readCounts, m.Keys) then f.(read := c.readCounts[k]) else f;
    if !(c.readCounts.Keys <= m.Keys) then afterReads
    else if k in c.unreadCounts && BeforeFirstMissing(k, c.unreadCounts, m.Keys) then afterReads.(unread := c.unreadCounts[k])
    else afterReads
  }

  /**
   * Applies a counter response to the cache, reporting the TypeError a write to
   * an uncached id raises.
   */
  function ApplyCounters(m: map<Id, Feed>, c: Counters): (r: (map<Id, Feed>, Option<Error>))
    ensures r.0.Keys == m.Keys
    ensures r.1.None? <==> c.readCounts.Keys <= m.Keys && c.unreadCounts.Keys <= m.Keys
    ensures r.1.Some? ==> r.1 == Some(TypeError)
    ensures forall k :: k in m ==> r.0[k] == AfterCounters(m, k, c)
  {
    var a := ApplyAll(m, c.readCounts, false);
    if !a.complete then
      ReadsStopped(m, c, a);
      (a.feeds, Some(TypeError))
    else
      var b := ApplyAll(a.feeds, c.unreadCounts, true);
      BothWalks(m, c, a, b);
      (b.feeds, if b.complete then None else Some(TypeError))
  }

  lemma ReadsStopped(m: map<Id, Feed>, c: Counters, a: Applied)
    requires a == ApplyAll(m, c.readCounts, false) && !a.complete
    ensures forall k :: k in m ==> a.feeds[k] == AfterCounters(m, k, c)
  {
  }

  lemma BothWalks(m: map<Id, Feed>, c: Counters, a: Applied, b: Applied)
    requires a == ApplyAll(m, c.readCounts, false) && a.complete
    requires b == ApplyAll(a.feeds, c.unreadCounts, true)
    ensures forall k :: k in m ==> b.feeds[k] == AfterCounters(m, k, c)
  {
    forall k | k in m
      ensures b.feeds[k] == AfterCounters(m, k, c)
    {
      var readDone := if k in c.readCounts then m[k].(read := c.readCounts[k]) else m[k];
      assert a.feeds[k] == readDone;
    }
  }

  /**
   * `getFeedCounters` given how its request settles: a failed request is
   * reported and changes nothing; a response is applied as `ApplyCounters`
   * says. Feeds the response does not name keep their counts, and are not
   * given a count of zero.
   */
  function GetFeedCounters(s: Store, outcome: Outcome<Counters>): (r: CountersStep)
    ensures r.request == Some(CountersRequest)
    ensures r.store.feeds.Keys == s.feeds.Keys && r.store.state == s.state
    ensures outcome.Err? ==> r.store == s && r.reported == Some(outcome.error)
    ensures outcome.Ok? ==>
      && (forall k :: k in s.feeds ==> r.store.feeds[k] == AfterCounters(s.feeds, k, outcome.payload))
      && (r.reported.None? <==> outcome.payload.readCounts.Keys <= s.feeds.Keys && outcome.payload.unreadCounts.Keys <= s.feeds.Keys)
      && (r.reported.Some? ==> r.reported == Some(TypeError))
  {
    match outcome
    case Err(e) => CountersStep(s, Some(CountersRequest), Some(e))
    case Ok(c) =>
      var (m, reported) := ApplyCounters(s.feeds, c);
      CountersStep(Store(m, s.state), Some(CountersRequest), reported)
  }

  /** The walk completes iff the cache holds every id it is given. */
  lemma ApplyCountsComplete(m: map<Id, Feed>, ks: seq<Id>, named: set<Id>)
    requires forall k :: k in ks <==> k in named
    ensures Reached(ks, m) == |ks| <==> named <= m.Keys
  {
    var p := Reached(ks, m);
    if p < |ks| {
      assert ks[p] in named && ks[p] !in m;
    } else {
      assert forall k :: k in named ==> k in m by {
        forall k | k in named
          ensures k in m
        {
          var i :| 0 <= i < |ks| && ks[i] == k;
        }
      }
    }
  }
}

=== FILE: model.dfy ===
/**
 * The entities the stores hold, as the API returns them.
 *
 * Fields the stores carry but never inspect (dates, icons, crawler and
 * authentication settings of a feed, entry content) are left out.
 */
module Model {
  import opened Common

  /** A category as the categories store keeps it. */
  datatype Category = Category(id: Id, title: string, userId: Id, hideGlobally: bool)

  /** A feed; `read` and `unread` are the counters the feeds store fills in. */
  datatype Feed = Feed(
    id: Id,
    userId: Id,
    title: string,
    siteUrl: string,
    feedUrl: string,
    category: Category,
    read: int,
    unread: int)

  /** The status values an entry can carry. */
  datatype EntryStatus = Read | Unread | Removed

  /** An entry of a feed. */
  datatype Entry = Entry(
    id: Id,
    userId: Id,
    feedId: Id,
    title: string,
    url: string,
    status: EntryStatus,
    starred: bool)

  datatype SortField = ById | ByStatus | ByPublishedAt | ByCategoryTitle | ByCategoryId

  datatype Direction = Asc | Desc

  /**
   * The query an entry fetch sends. Every field is optional: a field the
   * client never set is absent from the object, and absent differs from
   * any value under deep equality.
   */
  datatype EntryFilter = EntryFilter(
    status: Option<EntryStatus>,
    offset: Option<int>,
    limit: Option<int>,
    order: Option<SortField>,
    direction: Option<Direction>,
    before: Option<int>,
    after: Option<int>,
    beforeEntryId: Option<Id>,
    afterEntryId: Option<Id>,
    starred: Option<bool>,
    search: Option<string>,
    categoryId: Option<Id>)

  /** The filter an entries store starts with: unread, newest first, 25 per page. */
  const InitialFilter: EntryFilter :=
    EntryFilter(Some(Unread), Some(0), Some(25), Some(ByPublishedAt), Some(Desc),
                None, None, None, None, None, None, None)

  /** The readiness signal of the feeds and entries stores: the last value it emitted. */
  datatype LoadState = Init | Loading | Ready | Failed

  /** The profile of the logged-in user. */
  datatype User = User(id: Id, username: string, isAdmin: bool, entriesPerPage: int)
}

=== FILE: object_keys.dfy ===
/**
 * Iteration order of a JavaScript object whose keys are ids.
 *
 * Integer-like property names of an object are enumerated in ascending numeric order,
 * so `lodash.values`, `each` and `filter` over an id-keyed object visit the ids sorted.
 */
module ObjectKeys {
  import opened Common

  predicate StrictlyIncreasing(ks: seq<Id>)
  {
    forall i, j :: 0 <= i < j < |ks| ==> ks[i] < ks[j]
  }

  /** `k` is the least id of `s`. */
  predicate IsLeast(k: Id, s: set<Id>)
  {
    k in s && forall j :: j in s ==> k <= j
  }

  /** Every non-empty set of ids has a least element. */
  lemma MinExists(s: set<Id>)
    requires s != {}
    ensures exists k :: IsLeast(k, s)
    decreases |s|
  {
    var x :| x in s;
    if s == {x} {
      assert IsLeast(x, s);
    } else {
      var rest := s - {x};
      MinExists(rest);
      var y :| IsLeast(y, rest);
      var m := if x < y then x else y;
      forall j | j in s
        ensures m <= j
      {
        if j != x {
          assert j in rest;
        }
      }
      assert IsLeast(m, s);
    }
  }

  /** The least id of a non-empty set. */
  function Least(s: set<Id>): (k: Id)
    requires s != {}
    ensures IsLeast(k, s)
  {
    MinExists(s);
    var k :| IsLeast(k, s); k
  }

  /** The ids of `s` in the order an object keyed by them enumerates its properties. */
  function Sorted(s: set<Id>): (ks: seq<Id>)
    ensures |ks| == |s|
    ensures forall k :: k in ks <==> k in s
    ensures StrictlyIncreasing(ks)
    decreases |s|
  {
    if s == {} then []
    else
      var k := Least(s);
      [k] + Sorted(s - {k})
  }
}

=== FILE: pretty.dfy ===
/** Text helpers for the views. */
module Pretty {

  /**
   * The word for `value` things: the word itself for exactly one, the word with
   * an `s` appended for every other number, zero and negatives included.
   * JavaScript numbers are modelled as reals.
   */
  function Pluralize(value: real, word: string): (r: string)
    ensures value == 1.0 ==> r == word
    ensures value != 1.0 ==> |r| == |word| + 1 && r[|word|] == 's'
    ensures r[..|word|] == word
  {
    if value == 1.0 then word else word + "s"
  }

  /** The plural of a fixed count tells the word apart: no two words share it. */
  lemma PluralizeInjective(value: real, a: string, b: string)
    ensures Pluralize(value, a) == Pluralize(value, b) <==> a == b
  {
    if Pluralize(value, a) == Pluralize(value, b) {
      assert |a| == |b|;
      assert a == Pluralize(value, a)[..|a|];
    }
  }
}

=== FILE: session.dfy ===
/**
 * The root store: the server address and token the client talks with, the
 * profile of the logged-in user, the login state machine
 * `init -> checking -> ready | auth_needed`, and the error sink every other
 * store reports to.
 */
module Session {
  import opened Common
  import Model
  import opened Api

  datatype Phase = Init | Checking | Ready | AuthNeeded

  /** `user` is `None` while it is still the empty object the store starts with. */
  datatype Session = Session(
    server: string,
    token: string,
    user: Option<Model.User>,
    isLoggedIn: bool,
    state: Phase)

  /** What an action leaves behind: the new store, the request it sent, the phases it emitted and what it threw. */
  datatype Step = Step(session: Session, request: Option<Request>, emitted: seq<Phase>, thrown: Option<Error>)

  /** What `showError` does besides updating the store. */
  datatype Effect = Redirect(path: string) | Notify(error: Error)

  const ProfileRequest := Request(Get, Me, NoPayload)

  const NotLoggedIn := PlainError("Not logged in")

  /** The store as created from the credentials found in local storage ("" when absent). */
  function Initial(storedServer: string, storedToken: string): (s: Session)
    ensures !s.isLoggedIn && s.user.None? && s.state == Init
    ensures s.server == storedServer && s.token == storedToken
  {
    Session(storedServer, storedToken, None, false, Init)
  }

  predicate HasCredentials(s: Session)
  {
    s.server != "" && s.token != ""
  }

  /**
   * Checks the credentials against the server. Without a server or a token it
   * throws at once; otherwise it asks for the profile and either logs in or
   * rethrows the request's error.
   */
  function GetUserProfile(s: Session, outcome: Outcome<Model.User>): (r: Step)
    ensures !HasCredentials(s) ==>
      && r.request.None?
      && r.emitted == [AuthNeeded]
      && r.thrown == Some(NotLoggedIn)
      && r.session == s.(state := AuthNeeded)
    ensures HasCredentials(s) ==> r.request == Some(ProfileRequest)
    ensures HasCredentials(s) && outcome.Ok? ==>
      && r.emitted == [Checking, Ready]
      && r.thrown.None?
      && r.session == s.(user := Some(outcome.payload), isLoggedIn := true, state := Ready)
    ensures HasCredentials(s) && outcome.Err? ==>
      && r.emitted == [Checking, AuthNeeded]
      && r.thrown == Some(outcome.error)
      && r.session == s.(state := AuthNeeded)
    ensures 1 <= |r.emitted| && r.session.state == r.emitted[|r.emitted| - 1]
    ensures r.session.server == s.server && r.session.token == s.token
  {
    if !HasCredentials(s) then
      Step(s.(state := AuthNeeded), None, [AuthNeeded], Some(NotLoggedIn))
    else
      match outcome
      case Ok(user) =>
        Step(s.(user := Some(user), isLoggedIn := true, state := Ready), Some(ProfileRequest), [Checking, Ready], None)
      case Err(e) =>
        Step(s.(state := AuthNeeded), Some(ProfileRequest), [Checking, AuthNeeded], Some(e))
  }

  /** Stores new credentials, then checks them as `GetUserProfile` does. */
  function RegisterToken(s: Session, server: string, token: string, outcome: Outcome<Model.User>): (r: Step)
    ensures r.session.server == server && r.session.token == token
    ensures server == "" || token == "" ==>
      && r.request.None?
      && r.emitted == [AuthNeeded]
      && r.thrown == Some(NotLoggedIn)
      && r.session == s.(server := server, token := token, state := AuthNeeded)
    ensures server != "" && token != "" ==> r.request == Some(ProfileRequest)
    ensures server != "" && token != "" && outcome.Ok? ==>
      && r.emitted == [Checking, Ready]
      && r.thrown.None?
      && r.session == s.(server := server, token := token, user := Some(outcome.payload), isLoggedIn := true, state := Ready)
    ensures server != "" && token != "" && outcome.Err? ==>
      && r.emitted == [Checking, AuthNeeded]
      && r.thrown == Some(outcome.error)
      && r.session == s.(server := server, token := token, state := AuthNeeded)
  {
    GetUserProfile(s.(server := server, token := token), outcome)
  }

  /** Forgets the token and the logged-in flag; server and profile stay. */
  function ClearToken(s: Session): (r: Session)
    ensures r.token == "" && !r.isLoggedIn
    ensures r.server == s.server && r.user == s.user && r.state == s.state
  {
    s.(token := "", isLoggedIn := false)
  }

  /** The error sink: an HTTP 401 logs out and leads home, anything else becomes a notification. */
  function ShowError(s: Session, e: Error): (r: (Session, Effect))
    ensures e == HttpError(Some(401)) ==> !r.0.isLoggedIn && r.1 == Redirect("/")
    ensures e != HttpError(Some(401)) ==> r.0 == s && r.1 == Notify(e)
    ensures r.0.server == s.server && r.0.token == s.token && r.0.user == s.user && r.0.state == s.state
  {
    if e.HttpError? && e.status == Some(401) then (s.(isLoggedIn := false), Redirect("/"))
    else (s, Notify(e))
  }

  /** Reports the error an action of another store handed over, if any. */
  function Report(s: Session, reported: Option<Error>): (r: Session)
    ensures reported.None? ==> r == s
    ensures r.isLoggedIn <==> s.isLoggedIn && reported != Some(HttpError(Some(401)))
    ensures r.server == s.server && r.token == s.token && r.user == s.user && r.state == s.state
  {
    match reported
    case None => s
    case Some(e) => ShowError(s, e).0
  }

  /** Being logged in, or in the ready phase, means a profile was received. */
  predicate ProfileKnown(s: Session)
  {
    (s.isLoggedIn || s.state == Ready) ==> s.user.Some?
  }

  /** Every action of the store keeps `ProfileKnown`. */
  lemma ProfileKnownPreserved(s: Session, server: string, token: string, e: Error, o: Outcome<Model.User>)
    requires ProfileKnown(s)
    ensures ProfileKnown(GetUserProfile(s, o).session)
    ensures ProfileKnown(RegisterToken(s, server, token, o).session)
    ensures ProfileKnown(ClearToken(s))
    ensures ProfileKnown(ShowError(s, e).0)
  {
  }

  /** After `clearToken` the next profile check cannot reach the server. */
  lemma ClearTokenThenCheck(s: Session, o: Outcome<Model.User>)
    ensures GetUserProfile(ClearToken(s), o).session.state == AuthNeeded
    ensures GetUserProfile(ClearToken(s), o).request.None?
    ensures !GetUserProfile(ClearToken(s), o).session.isLoggedIn
  {
  }

  /** A login that reaches the server settles the same way whatever store it starts from. */
  lemma RegisterTokenForgetsPrevious(s: Session, t: Session, server: string, token: string, u: Model.User)
    requires server != "" && token != ""
    ensures RegisterToken(s, server, token, Ok(u)).session == RegisterToken(t, server, token, Ok(u)).session
  {
  }
}
